=== FILE: README.md ===
# Network-building node container, singleton dictionary and detector output registry

A Dafny model of three components of a road-traffic simulation suite.

- **Node container** (`NBNodeCont`). It holds the nodes (junctions) of a road network while the network is built.
  - Nodes are keyed by id, so no two stored nodes share an id. Insertion with a position refuses a taken id or a taken position; insertion by id alone refuses only a taken id.
  - It keeps the bookkeeping of nodes that must not be joined and of loaded clusters that must be joined.
  - It runs clean-up passes over the nodes and the directed edges between them:
    - removing dummy edges, which start and end at the same node;
    - joining parallel edges with the same geometry;
    - removing edgeless nodes and nodes that only carry geometry;
    - building clusters of nearby, connected nodes.
- **Singleton dictionary** (`SingletonDictionary`). One global instance, with a three-state life cycle:
  - it must be created explicitly before use;
  - asking for it before that fails with `SingletonNotCreated`;
  - the destructor resets it.
- **Detector-to-file registry** (`MSDetector2File`). Records which detector writes to which file at which interval, and when each sample interval was last written. Its sole instance is created on first access.

Modules:

| file | module | models |
|---|---|---|
| `common.dfy` | `Common` | `Option` and `Result` |
| `net_elements.dfy` | `NetElements` | nodes, edges, integer positions, squared distance |
| `node_container.dfy` | `NodeContainer` | the node registry and the join bookkeeping |
| `net_cleanup.dfy` | `NetCleanup` | removeDummyEdges, joinDoubleNodeConnections, removeUnwishedNodes |
| `node_clusters.dfy` | `NodeClusters` | generateNodeClusters, and the exclusions applied to its clusters |
| `singleton_dictionary.dfy` | `SingletonDictionary` | create / getInstance / destructor / constructor of the singleton |
| `detector2file.dfy` | `Detector2File` | the detector registry of the output singleton |

How the model represents SUMO's data:

- Global instance pointers are explicit state values:
  - `SingletonDictionary.Slot` holds the pointer and a creation counter. The counter lets the model tell instances apart.
  - `Detector2File` uses an `Option<Registry>`.
- Positions are integer pairs. "Closer than maxDist" compares squared distances.
- Edges are records `(id, from, to, geometry)` in a map from edge id to edge.
- The traffic-light container is reduced to the set of tls-controlled node ids.
- The joined-edges map is reduced to the sequence of (kept edge, appended edge) pairs.

## Model

| member | source | states |
|---|---|---|
| NodeContainer.Empty | src/netbuild/NBNodeCont.h:60-61 | a new container is valid, has size 0 and retrieves nothing |
| NodeContainer.Retrieve | src/netbuild/NBNodeCont.h:117-121 | yields a node exactly when one is stored under the id, and that node carries the id |
| NodeContainer.InsertNode | src/netbuild/NBNodeCont.h:97-101 | succeeds iff neither the id nor the position is taken; on success the node is retrievable and the size grows by one; on failure the container is unchanged; other ids and the join bookkeeping are untouched; validity is kept |
| NodeContainer.Insert | src/netbuild/NBNodeCont.h:72-87 | the same rule for a node built from id and position |
| NodeContainer.InsertId | src/netbuild/NBNodeCont.h:90-94 | succeeds iff the id is not taken, with no position check; otherwise as Insert |
| NodeContainer.Extract | src/netbuild/NBNodeCont.h:111-115 | hands back exactly the stored node (or none); afterwards the id retrieves nothing, other ids are unchanged and the size drops by one iff the node existed |
| NodeContainer.Erase | src/netbuild/NBNodeCont.h:104-108 | true iff the node was stored, and then the size drops by one; afterwards the id retrieves nothing, every other node is unchanged and the join bookkeeping is kept |
| NodeContainer.Clear | src/netbuild/NBNodeCont.h:284-285 | no node remains; the join bookkeeping is kept |
| NodeContainer.InsertThenErase | src/netbuild/NBNodeCont.h:82-108 | erasing a just-inserted id restores the original container and reports success |
| NodeContainer.EraseThenInsert | src/netbuild/NBNodeCont.h:97-108 | re-inserting an erased node restores the container, unless another node took its position |
| NodeContainer.RetrieveAt | src/netbuild/NBNodeCont.h:124-129 | finds a stored node at the exact position iff one lies there |
| NodeContainer.GetAllNames | src/netbuild/NBNodeCont.h:306-307 | lists exactly the stored ids, each once; their number is `NodeContainer.Size`, the container's size (src/netbuild/NBNodeCont.h:277-282) |
| NodeContainer.AddJoinExclusion | src/netbuild/NBNodeCont.h:153-158 | an id becomes excluded iff it was excluded or is listed and accepted; accepted means not in a loaded join cluster and, with checking on, a stored node; exactly the refused ids are reported back; nothing else changes |
| NodeContainer.AddCluster2Join | src/netbuild/NBNodeCont.h:161-164 | a cluster is recorded iff it meets no excluded id and no id of an earlier cluster; it is appended and its ids are noted as joined; a refused cluster changes nothing |
| NodeContainer.ExcludedNeverInLoadedCluster | src/netbuild/NBNodeCont.h:384-391 | after any sequence of exclusions and cluster loads, no loaded cluster contains an excluded id |
| NetCleanup.RemoveDummyEdges | src/netbuild/NBNodeCont.h:181-187 | afterwards every edge connects two different nodes; exactly the edges lying within one node are removed, the rest are unchanged |
| NetCleanup.RemoveDummyEdgesIdempotent | src/netbuild/NBNodeCont.h:181-187 | a second run removes nothing more |
| NetCleanup.JoinDoubleNodeConnections | src/netbuild/NBNodeCont.h:190-196 | afterwards no two edges with the same geometry connect the same nodes; every input connection is still present; kept edges are unchanged input edges; without doubles nothing changes |
| NetCleanup.CleanEdges | src/netbuild/NBNodeCont.h:181-196 | both passes together leave neither dummy edges nor doubles, and lose no connection between different nodes |
| NetCleanup.JoinAtFacts | src/netbuild/NBNodeCont.h:212-214 | joining the two edges at a geometry node leaves that node edgeless, removes only the continuation edge and reroutes the kept edge to the continuation's end |
| NetCleanup.ClassificationKept | src/netbuild/NBNodeCont.h:210-216 | such a join makes no other node edgeless or non-edgeless, and creates no new geometry node |
| NetCleanup.JoinGeometryStep | src/netbuild/NBNodeCont.h:210-226 | removing a geometry node by joining its edges keeps the loop invariant of the pass |
| NetCleanup.JoinKeepsTrace | src/netbuild/NBNodeCont.h:210-216 | a node removed by a join was a geometry node of the input, and every node still waiting that looks edgeless or like a geometry node after the join looked so in the input |
| NetCleanup.JoinKeepsFrame | src/netbuild/NBNodeCont.h:212-214 | a join changes only the kept edge, which keeps its start and original geometry, and drops only the appended edge |
| NetCleanup.ChainJoin | src/netbuild/NBNodeCont.h:212-214 | a walk ending at a node followed by a walk starting there is one walk through that node |
| NetCleanup.JoinGeometryRouted | src/netbuild/NBNodeCont.h:212-214 | a join at a node extends the kept edge's walk by the appended edge's walk, and the two meet at that node |
| NetCleanup.JoinGeometryEnds | src/netbuild/NBNodeCont.h:212-214 | after a join the kept edge ends where the appended edge ended, and the appended edge started at the removed node |
| NetCleanup.RemoveUnwishedNodes | src/netbuild/NBNodeCont.h:210-226 | edgeless nodes are always removed; geometry nodes are removed (their edges joined) only when asked; without that, exactly the edgeless nodes go and the edges stay; afterwards no kept node is edgeless (or a geometry node, when asked); removed nodes leave the tls-controlled set; the count is the number removed; every removed node was edgeless or (when asked) a geometry node of the input; no edge touches a removed node; each join appends one edge to another and removes it; an input edge disappears only by being appended, and every appended edge started at a removed node; every edge left is the first edge of a walk in the input whose interior nodes were all removed, and it ends where that walk ends, so the edges joined at a node are the ones that met there; an edge never extended is unchanged, and an extended one keeps its start node and begins with its original geometry |
| NodeClusters.NearRelation | src/netbuild/NBNodeCont.h:340-347 | relates exactly the pairs of distinct stored nodes joined by an edge and closer than maxDist |
| NodeClusters.NearRelationShape | src/netbuild/NBNodeCont.h:340-347 | nearness is symmetric and irreflexive and relates stored nodes only |
| NodeClusters.GenerateNodeClusters | src/netbuild/NBNodeCont.h:340-347 | each cluster has at least two distinct stored nodes; each is connected through near pairs and contains every node near a member; clusters are disjoint; every node near another lies in some cluster |
| NodeClusters.JoinCandidates | src/netbuild/NBNodeCont.h:153-158 | the join candidates have at least two nodes each and contain no excluded id |
| NodeClusters.JoinCandidatesSound | src/netbuild/NBNodeCont.h:384-385 | each joined cluster is a generated cluster minus the excluded ids |
| NodeClusters.JoinCandidatesComplete | src/netbuild/NBNodeCont.h:384-385 | each generated cluster keeping two or more ids after the exclusions is joined |
| NodeClusters.ExcludedNeverJoined | src/netbuild/NBNodeCont.h:153-158 | an excluded id is never joined with other nodes; joined clusters consist of stored nodes |
| SingletonDictionary.Initial | src/helpers/SingletonDictionary.h:118-121 | at start no instance exists |
| SingletonDictionary.NewDict | src/helpers/SingletonDictionary.h:93-103 | a freshly constructed dictionary is empty and in insert mode |
| SingletonDictionary.Create | src/helpers/SingletonDictionary.h:57-69 | succeeds iff no instance exists, creating a new empty insert-mode instance distinct from every earlier one; a second create is the assertion failure and changes nothing |
| SingletonDictionary.GetInstance | src/helpers/SingletonDictionary.h:71-85 | returns the instance iff one exists; otherwise fails with SingletonNotCreated and its message (src/helpers/SingletonDictionary.h:38-44) |
| SingletonDictionary.Destroy | src/helpers/SingletonDictionary.h:87-91 | resets the pointer: a following getInstance fails and a following create succeeds |
| SingletonDictionary.RecreatedIsNew | src/helpers/SingletonDictionary.h:65-91 | an instance created after destruction is a different instance |
| SingletonDictionary.SameInstanceUntilDestroyed | src/helpers/SingletonDictionary.h:65-85 | once created, every getInstance returns the same instance and every create fails, until a destruction |
| SingletonDictionary.NotCreatedAfterDestroy | src/helpers/SingletonDictionary.h:78-91 | without a create, every getInstance fails with SingletonNotCreated |
| Detector2File.EmptyRegistry | src/microsim/MSDetector2File.h:106-107 | the constructed registry has no intervals and no last calls |
| Detector2File.AddDetectorAndInterval | src/microsim/MSDetector2File.h:72-87 | files the detector under (sampleSteps, writeSteps) unless a pair of that key already holds it by `Detector2File.DetectorEquals`, detector identity alone (src/microsim/MSDetector2File.h:110-126), in which case nothing changes; other keys and the last calls are unchanged; no detector appears twice under a key |
| Detector2File.AddDetectorIdempotent | src/microsim/MSDetector2File.h:110-126 | adding the same detector again under the same key, whatever the file, changes nothing |
| Detector2File.Write2File | src/microsim/MSDetector2File.h:90-103 | acts on exactly the detectors filed under the key; returns the write period for rescheduling; records the call time for the key's sample interval (src/microsim/MSDetector2File.h:136-140); no interval list and no other last call changes |
| Detector2File.Write2FileKeepsRegistrations | src/microsim/MSDetector2File.h:90-103 | a write keeps the registry valid and every registration in place |
| Detector2File.Files | src/microsim/MSDetector2File.h:48-51 | holds exactly the files that filed detectors write to |
| Detector2File.GetInstance | src/microsim/MSDetector2File.h:56-61 | returns the existing instance, or a new empty one on the first call |
| Detector2File.AfterGetInstance | src/microsim/MSDetector2File.h:56-61 | after a call the instance exists, and later calls return the same instance |
| Detector2File.Destroy | src/microsim/MSDetector2File.h:64-69 | closes every file of a filed detector and resets the pointer, so the next getInstance starts with an empty interval map |

## Left out

- District handling (the `NBDistrict` argument of insert and the district container of every pass): districts are not part of this model.
- `retrieve(position, offset)` with a non-zero offset: positions are integers, and `NodeContainer.RetrieveAt` looks up the exact position only.
- NodeContainer.InsertId: the `Position` result of `insert(id)` is not modelled. The header does not say which position `insert(id)` gives the node, so the position is a parameter.
- NodeContainer.GetAllNames: promises the ids but not their order. The nodes sit in a `std::map` keyed by id (src/netbuild/NBNodeCont.h:379-382), so the real list is likely in id order; the header does not promise it.
- NodeContainer.AddJoinExclusion: the documentation of `addJoinExclusion` names no refusal rule. Refusing ids of loaded join clusters is the model's reading of the comment on `myJoined`, which says those ids are kept for error checking.
- NodeContainer.AddCluster2Join: the documentation of `addCluster2Join` names no refusal rule either. Refusing a cluster that meets an excluded or an already-joined id is the model's reading of the same comment. It is what keeps excluded ids out of loaded clusters.
- The joining operations `joinLoadedClusters`, `joinJunctions`, `joinNodeClusters`, `merge`, `remapEdge` and `analyzeCluster`: their id, position and tls policy is not documented. The model stops at the join candidates (`NodeClusters.JoinCandidates`).
- NodeClusters.JoinCandidates: the header documents no rule for applying join exclusions to generated clusters. Removing the excluded ids from each cluster and keeping what has two or more nodes left is the model's choice. As a consequence, for a chain a–b–c of near nodes with b excluded, a and c become a candidate although they are not near each other.
- `removeIsolatedRoads`, `guessTLs`, `joinTLS`, `setAsTLControlled`, `guessRamps`, all `compute*` passes, `sortNodesEdges`, `getFreeID`, `printBuiltNodesStatistics`: these are options-driven heuristics or output, outside this model.
- NetCleanup.JoinDoubleNodeConnections: keeps one of the parallel edges unchanged. The header says only that such edges are joined; what the joined edge carries over from the dropped ones (lanes, for instance) is left open there, and `NBEdge` is not part of this model.
- NetCleanup.RemoveUnwishedNodes: a geometry node is one with exactly one incoming and one outgoing edge whose join does not make a loop. The header leaves the criterion to `NBNode::checkIsRemovable`, which is not part of this model; any further cases it may accept are left out. Nodes are visited in an arbitrary order, because the header documents no visiting order.
- NetCleanup.RemoveDummyEdges: edges are removed only from the edge map. Detaching them from `NBNode` edge lists and updating districts and traffic lights are left out with those classes.
- The `SUMOReal` distance of `generateNodeClusters`: it is an integer here, compared through squared integer distances.
- SingletonDictionary.Create: a second `create` violates an `assert`. The model returns the error `CreateTwice` and leaves the state unchanged; a build without assertions would replace the pointer instead.
- SingletonDictionary.NewDict: the key-value behaviour of the base class is not modelled beyond an empty entry map in insert mode. `Dictionary.h` is not part of this model.
- Detector2File.Write2File: `write2file` documents no behaviour for a key with nothing filed, so the model returns `None` for it. Writing XML to the streams, the event scheduling and the `MSUnit` conversion from seconds to steps are left out: keys are given in steps.
- Detector2File.Destroy: closing a file is modelled as the set of file names closed; `ofstream` is outside the model.

=== FILE: common.dfy ===
/** Values for lookups that may miss and for calls that may fail. */
module Common {

  /** A lookup result: SUMO returns a null pointer where the model returns None. */
  datatype Option<+T> = None | Some(value: T)

  /** An outcome that is either a value or the error SUMO would throw or report. */
  datatype Result<+T, +E> = Ok(value: T) | Err(error: E)
}

=== FILE: detector2file.dfy ===
/**
 * Bookkeeping of the detector-to-file singleton: which detectors write to
 * which file at which interval, and when each sample interval was last
 * served. Detectors are abstract ids, file streams are file names, and
 * intervals are already counted in simulation steps.
 */
module Detector2File {
  import opened Common

  /** A detector, identified by identity only. */
  type DetectorId = nat

  /** The interval pair a detector is filed under: sample length and write period, in steps. */
  datatype IntervalsKey = IntervalsKey(sampleSteps: int, writeSteps: int)

  /** A detector together with the file its output goes to. */
  datatype DetectorFilePair = DetectorFilePair(det: DetectorId, file: string)

  /** The registry: detector lists per interval key, and the last call per sample interval. */
  datatype Registry = Registry(intervals: map<IntervalsKey, seq<DetectorFilePair>>, lastCalls: map<int, int>)

  /** Whether the pair holds the given detector; the file plays no part. */
  predicate DetectorEquals(pair: DetectorFilePair, det: DetectorId) {
    pair.det == det
  }

  /** Whether some pair of the list holds the detector. */
  predicate Holds(pairs: seq<DetectorFilePair>, det: DetectorId) {
    exists j :: 0 <= j < |pairs| && DetectorEquals(pairs[j], det)
  }

  /** Each detector appears at most once in the list. */
  ghost predicate UniqueDetectors(pairs: seq<DetectorFilePair>) {
    forall j, k :: 0 <= j < k < |pairs| ==> pairs[j].det != pairs[k].det
  }

  /** No detector is filed twice under the same key. */
  ghost predicate Valid(reg: Registry) {
    forall key :: key in reg.intervals ==> UniqueDetectors(reg.intervals[key])
  }

  /** The registry of a newly created instance: no intervals, no calls. */
  function EmptyRegistry(): (reg: Registry)
    ensures Valid(reg) && reg.intervals == map[] && reg.lastCalls == map[]
  {
    Registry(map[], map[])
  }

  /**
   * Files the detector with its file under (sampleSteps, writeSteps). A
   * detector already filed under that key is not added again, and the key's
   * list stays as it is. No other key changes.
   */
  function AddDetectorAndInterval(reg: Registry, det: DetectorId, file: string, sampleSteps: int, writeSteps: int): (r: Registry)
    ensures var key := IntervalsKey(sampleSteps, writeSteps);
      && key in r.intervals
      && Holds(r.intervals[key], det)
      && (key in reg.intervals && Holds(reg.intervals[key], det) ==> r == reg)
      && (!(key in reg.intervals && Holds(reg.intervals[key], det)) ==>
            r.intervals[key] == (if key in reg.intervals then reg.intervals[key] else []) + [DetectorFilePair(det, file)])
    ensures r.intervals.Keys == reg.intervals.Keys + {IntervalsKey(sampleSteps, writeSteps)}
    ensures forall key :: key in reg.intervals && key != IntervalsKey(sampleSteps, writeSteps) ==>
      r.intervals[key] == reg.intervals[key]
    ensures r.lastCalls == reg.lastCalls
    ensures Valid(reg) ==> Valid(r)
  {
    var key := IntervalsKey(sampleSteps, writeSteps);
    var pairs := if key in reg.intervals then reg.intervals[key] else [];
    if Holds(pairs, det) then reg
    else
      var added := pairs + [DetectorFilePair(det, file)];
      assert DetectorEquals(added[|pairs|], det);
      reg.(intervals := reg.intervals[key := added])
  }

  /** Adding a detector a second time under the same key changes nothing. */
  lemma AddDetectorIdempotent(reg: Registry, det: DetectorId, file: string, file2: string, sampleSteps: int, writeSteps: int)
    ensures var once := AddDetectorAndInterval(reg, det, file, sampleSteps, writeSteps);
      AddDetectorAndInterval(once, det, file2, sampleSteps, writeSteps) == once
  {
  }

  /** The result of a due write: who writes, and when the event comes back. */
  datatype Written = Written(pairs: seq<DetectorFilePair>, reactivateIn: int, reg: Registry)

  /**
   * The write event for `key` is due at step `now`: every detector filed
   * under the key writes its data to its file, the key's sample interval
   * records `now` as its last call, and the event is rescheduled after the
   * key's write period. Fails for a key nothing is filed under.
   */
  function Write2File(reg: Registry, key: IntervalsKey, now: int): (r: Option<Written>)
    ensures r.Some? <==> key in reg.intervals
    ensures r.Some? ==> r.value.pairs == reg.intervals[key]
    ensures r.Some? ==> r.value.reactivateIn == key.writeSteps
    ensures r.Some? ==> r.value.reg.intervals == reg.intervals
    ensures r.Some? ==> key.sampleSteps in r.value.reg.lastCalls && r.value.reg.lastCalls[key.sampleSteps] == now
    ensures r.Some? ==> forall s :: s in reg.lastCalls && s != key.sampleSteps ==>
      s in r.value.reg.lastCalls && r.value.reg.lastCalls[s] == reg.lastCalls[s]
    ensures r.Some? ==> r.value.reg.lastCalls.Keys == reg.lastCalls.Keys + {key.sampleSteps}
  {
    if key !in reg.intervals then None
    else Some(Written(reg.intervals[key], key.writeSteps, reg.(lastCalls := reg.lastCalls[key.sampleSteps := now])))
  }

  /**
   * A write leaves the registry valid, and every filed detector keeps its
   * place: writing never adds or drops a registration.
   */
  lemma Write2FileKeepsRegistrations(reg: Registry, key: IntervalsKey, now: int, det: DetectorId, other: IntervalsKey)
    requires Valid(reg) && key in reg.intervals
    ensures Valid(Write2File(reg, key, now).value.reg)
    ensures other in reg.intervals && Holds(reg.intervals[other], det) ==>
      Holds(Write2File(reg, key, now).value.reg.intervals[other], det)
  {
  }

  /** Every file some filed detector writes to. */
  function Files(reg: Registry): (files: set<string>)
    ensures forall key, j :: key in reg.intervals && 0 <= j < |reg.intervals[key]| ==> reg.intervals[key][j].file in files
    ensures forall f :: f in files ==>
      exists key, j :: key in reg.intervals && 0 <= j < |reg.intervals[key]| && reg.intervals[key][j].file == f
  {
    set key, p | key in reg.intervals && p in reg.intervals[key] :: p.file
  }

  /**
   * The sole instance returned by getInstance, created with an empty registry
   * on the first call; later calls return the same instance unchanged.
   */
  function GetInstance(slot: Option<Registry>): (r: Registry)
    ensures slot.Some? ==> r == slot.value
    ensures slot.None? ==> r == EmptyRegistry()
  {
    match slot
    case None => EmptyRegistry()
    case Some(reg) => reg
  }

  /** The instance slot after a call of getInstance: it always holds the instance. */
  function AfterGetInstance(slot: Option<Registry>): (r: Option<Registry>)
    ensures r.Some?
    ensures GetInstance(r) == GetInstance(slot)
  {
    Some(GetInstance(slot))
  }

  /** The destructor's effect: the files closed and the reset instance slot. */
  datatype Destroyed = Destroyed(closed: set<string>, slot: Option<Registry>)

  /**
   * The destructor: closes every file a filed detector writes to, clears the
   * interval map and resets the instance pointer. The next getInstance
   * starts over with an empty registry.
   */
  function Destroy(reg: Registry): (r: Destroyed)
    ensures r.slot.None?
    ensures r.closed == Files(reg)
    ensures GetInstance(r.slot).intervals == map[]
  {
    Destroyed(Files(reg), None)
  }
}

=== FILE: net_cleanup.dfy ===
/**
 * Clean-up passes the node container runs over the nodes and edges of a
 * network while it is built: removing edges that lie within one node, joining
 * parallel edges with the same geometry, and removing nodes that have no edges
 * or only carry geometry.
 */
module NetCleanup {
  import opened NetElements
  import opened NodeContainer

  /** The parts of the network a clean-up pass works on. */
  datatype Net = Net(nc: NodeCont, edges: EdgeCont, tlsControlled: set<NodeId>)

  /** Every edge of `sub` is an unchanged edge of `edges`. */
  ghost predicate SubEdges(sub: EdgeCont, edges: EdgeCont) {
    forall k :: k in sub ==> k in edges && sub[k] == edges[k]
  }

  // ---------------------------------------------------------------------------
  // Dummy edges
  // ---------------------------------------------------------------------------

  /** A dummy edge lies completely within one node: it starts and ends there. */
  predicate IsDummy(e: Edge) {
    e.from == e.to
  }

  /** Each edge connects two different nodes. */
  ghost predicate NoDummyEdges(edges: EdgeCont) {
    forall k :: k in edges ==> !IsDummy(edges[k])
  }

  /** Removes the dummy edges; every other edge is kept unchanged. */
  function RemoveDummyEdges(edges: EdgeCont): (r: EdgeCont)
    ensures NoDummyEdges(r)
    ensures SubEdges(r, edges)
    ensures forall k :: k in edges && !IsDummy(edges[k]) ==> k in r
  {
    map k | k in edges && !IsDummy(edges[k]) :: edges[k]
  }

  /** A second run finds nothing more to remove. */
  lemma RemoveDummyEdgesIdempotent(edges: EdgeCont)
    ensures RemoveDummyEdges(RemoveDummyEdges(edges)) == RemoveDummyEdges(edges)
  {
    var once := RemoveDummyEdges(edges);
    assert RemoveDummyEdges(once).Keys == once.Keys;
  }

  // ---------------------------------------------------------------------------
  // Parallel edges
  // ---------------------------------------------------------------------------

  /** Two edges connect the same nodes in the same direction with the same geometry. */
  predicate SameConnection(a: Edge, b: Edge) {
    a.from == b.from && a.to == b.to && a.geom == b.geom
  }

  /** No two edges with the same geometry connect the same nodes. */
  ghost predicate NoDoubleConnections(edges: EdgeCont) {
    forall k1, k2 :: k1 in edges && k2 in edges && k1 != k2 ==> !SameConnection(edges[k1], edges[k2])
  }

  /** Some edge of `edges` provides the same connection as `e`. */
  ghost predicate Connects(edges: EdgeCont, e: Edge) {
    exists k :: k in edges && SameConnection(edges[k], e)
  }

  /**
   * Joins edges connecting the same nodes with the same geometry: of every
   * group of such edges one is kept, unchanged. Afterwards no two edges with
   * the same geometry connect the same nodes, and every connection of the
   * input is still present.
   */
  method JoinDoubleNodeConnections(edges: EdgeCont) returns (r: EdgeCont)
    ensures SubEdges(r, edges)
    ensures NoDoubleConnections(r)
    ensures forall k :: k in edges ==> Connects(r, edges[k])
    ensures NoDoubleConnections(edges) ==> r == edges
  {
    r := map[];
    var todo := edges.Keys;
    while todo != {}
      invariant todo <= edges.Keys
      invariant SubEdges(r, edges)
      invariant forall k :: k in r ==> k !in todo
      invariant NoDoubleConnections(r)
      invariant forall k :: k in edges && k !in todo ==> Connects(r, edges[k])
      invariant NoDoubleConnections(edges) ==> r.Keys == edges.Keys - todo
      decreases todo
    {
      var k :| k in todo;
      todo := todo - {k};
      if !(exists k' :: k' in r && SameConnection(r[k'], edges[k])) {
        r := r[k := edges[k]];
        assert SameConnection(r[k], edges[k]);
      }
    }
    if NoDoubleConnections(edges) {
      assert r.Keys == edges.Keys;
    }
  }

  /** Both passes together leave edges between different nodes, without doubles. */
  method CleanEdges(edges: EdgeCont) returns (r: EdgeCont)
    ensures NoDummyEdges(r) && NoDoubleConnections(r)
    ensures SubEdges(r, edges)
    ensures forall k :: k in edges && !IsDummy(edges[k]) ==> Connects(r, edges[k])
  {
    var noDummies := RemoveDummyEdges(edges);
    r := JoinDoubleNodeConnections(noDummies);
    forall k | k in edges && !IsDummy(edges[k]) ensures Connects(r, edges[k]) {
      assert k in noDummies;
    }
  }

  // ---------------------------------------------------------------------------
  // Unwished nodes
  // ---------------------------------------------------------------------------

  /** The edges ending at node n. */
  function InEdges(edges: EdgeCont, n: NodeId): set<EdgeId> {
    set k | k in edges.Keys && edges[k].to == n
  }

  /** The edges starting at node n. */
  function OutEdges(edges: EdgeCont, n: NodeId): set<EdgeId> {
    set k | k in edges.Keys && edges[k].from == n
  }

  /** No edge starts or ends at node n. */
  predicate Edgeless(edges: EdgeCont, n: NodeId) {
    InEdges(edges, n) == {} && OutEdges(edges, n) == {}
  }

  /**
   * Node n only carries geometry: its one incoming edge is i, its one outgoing
   * edge is o, and joining them would not make a loop.
   */
  predicate GeometryAt(edges: EdgeCont, n: NodeId, i: EdgeId, o: EdgeId) {
    && i in edges && o in edges
    && InEdges(edges, n) == {i} && OutEdges(edges, n) == {o}
    && edges[i].from != edges[o].to
  }

  predicate IsGeometryNode(edges: EdgeCont, n: NodeId) {
    exists i, o :: i in edges && o in edges && GeometryAt(edges, n, i, o)
  }

  /**
   * Replaces the edge i into a geometry node and the edge o out of it by one
   * edge: i keeps its id and is extended by o, whose geometry it appends after
   * the node's position; o is removed.
   */
  function JoinAt(edges: EdgeCont, i: EdgeId, o: EdgeId, pos: Position): EdgeCont
    requires i in edges && o in edges
  {
    var begin := edges[i];
    var continuation := edges[o];
    (edges - {o})[i := Edge(begin.id, begin.from, continuation.to, begin.geom + [pos] + continuation.geom)]
  }

  /** How joining at a geometry node changes the edges around each node. */
  lemma JoinAtFacts(edges: EdgeCont, n: NodeId, i: EdgeId, o: EdgeId, pos: Position)
    requires GeometryAt(edges, n, i, o)
    ensures i != o && edges[i].from != n && edges[o].to != n
    ensures Edgeless(JoinAt(edges, i, o, pos), n)
    ensures forall x :: x != n ==> OutEdges(JoinAt(edges, i, o, pos), x) == OutEdges(edges, x)
    ensures forall x :: x != n && x != edges[o].to ==> InEdges(JoinAt(edges, i, o, pos), x) == InEdges(edges, x)
    ensures InEdges(JoinAt(edges, i, o, pos), edges[o].to) == InEdges(edges, edges[o].to) - {o} + {i}
    ensures JoinAt(edges, i, o, pos).Keys == edges.Keys - {o}
    ensures forall k :: k in edges && k != i && k != o ==> JoinAt(edges, i, o, pos)[k] == edges[k]
  {
    var e' := JoinAt(edges, i, o, pos);
    assert i in InEdges(edges, n) && o in OutEdges(edges, n);
    assert edges[i].to == n && edges[o].from == n;
    assert i != o;
    assert o !in InEdges(edges, n) && i !in OutEdges(edges, n);
    forall k | k in e' ensures e'[k].to != n && e'[k].from != n {
      if k != i {
        assert k !in InEdges(edges, n) && k !in OutEdges(edges, n);
      }
    }
    assert InEdges(e', n) == {};
    assert OutEdges(e', n) == {};
  }

  /**
   * Joining at geometry node n changes no other node's classification in a
   * way that matters: a node is edgeless afterwards exactly when it was
   * before, and only a node that was a geometry node before may be one after.
   */
  lemma ClassificationKept(edges: EdgeCont, n: NodeId, i: EdgeId, o: EdgeId, pos: Position, x: NodeId)
    requires GeometryAt(edges, n, i, o) && x != n
    ensures Edgeless(JoinAt(edges, i, o, pos), x) <==> Edgeless(edges, x)
    ensures IsGeometryNode(JoinAt(edges, i, o, pos), x) ==> IsGeometryNode(edges, x)
  {
    var e' := JoinAt(edges, i, o, pos);
    var a, b := edges[i].from, edges[o].to;
    JoinAtFacts(edges, n, i, o, pos);
    assert i in OutEdges(edges, a) && i in OutEdges(e', a);
    assert o in InEdges(edges, b) && i in InEdges(e', b);
    if IsGeometryNode(e', x) {
      var p, q :| p in e' && q in e' && GeometryAt(e', x, p, q);
      if x == b {
        assert p == i;
        assert i !in InEdges(edges, b);
        assert InEdges(edges, b) - {o} == {};
        assert InEdges(edges, b) == {o};
        assert q != i && q != o;
        assert q !in InEdges(edges, n);
        assert GeometryAt(edges, x, o, q);
      } else {
        assert p != i && p != o && q != o;
        if x == a {
          assert q == i;
          assert p !in OutEdges(edges, n);
        } else {
          assert q != i;
        }
        assert GeometryAt(edges, x, p, q);
      }
    }
  }

  /** Removing a subset of a map's keys shrinks it by exactly their number. */
  lemma RemoveKeysSize(m: map<NodeId, Node>, s: set<NodeId>)
    requires s <= m.Keys
    ensures |m - s| == |m| - |s|
  {
    assert (m - s).Keys == m.Keys - s;
    assert m.Keys == (m.Keys - s) + s;
  }

  /** The nodes looked at so far are those outside `todo`; only they may have been removed. */
  ghost predicate Progress(net: Net, todo: set<NodeId>, removed: set<NodeId>) {
    todo <= net.nc.nodes.Keys && removed <= net.nc.nodes.Keys - todo
  }

  /** Every node looked at and kept has an edge and, when asked, is no geometry node. */
  ghost predicate KeptWanted(net: Net, removeGeometryNodes: bool, todo: set<NodeId>, removed: set<NodeId>, edges: EdgeCont) {
    && (forall x :: x in net.nc.nodes && x !in todo && x !in removed ==> !Edgeless(edges, x))
    && (removeGeometryNodes ==>
          forall x :: x in net.nc.nodes && x !in todo && x !in removed ==> !IsGeometryNode(edges, x))
  }

  /** A node without edges at the start is removed or still waits, still without edges. */
  ghost predicate EdgelessPending(net: Net, todo: set<NodeId>, removed: set<NodeId>, edges: EdgeCont) {
    forall x :: x in net.nc.nodes && Edgeless(net.edges, x) ==> x in removed || (x in todo && Edgeless(edges, x))
  }

  /** No edge touches a removed node. */
  ghost predicate NoDangling(removed: set<NodeId>, edges: EdgeCont) {
    forall k :: k in edges ==> edges[k].from !in removed && edges[k].to !in removed
  }

  /** Each join removed one edge of the input, the appended one. */
  ghost predicate JoinLog(net: Net, edges: EdgeCont, joined: seq<(EdgeId, EdgeId)>) {
    && edges.Keys <= net.edges.Keys
    && |edges| + |joined| == |net.edges|
    && (forall p :: p in joined ==> p.0 in net.edges && p.1 in net.edges && p.1 !in edges && p.0 != p.1)
  }

  /** Without geometry removal the edges stay as they are and exactly the edgeless nodes go. */
  ghost predicate OnlyEdgeless(net: Net, removeGeometryNodes: bool, todo: set<NodeId>, removed: set<NodeId>,
                               edges: EdgeCont, joined: seq<(EdgeId, EdgeId)>) {
    !removeGeometryNodes ==>
      && edges == net.edges && joined == []
      && (forall x :: x in removed <==> x in net.nc.nodes && x !in todo && Edgeless(net.edges, x))
  }

  /** Every removed node had no edges or, when asked, was a geometry node of the input. */
  ghost predicate RemovedUnwished(net: Net, removeGeometryNodes: bool, removed: set<NodeId>) {
    forall x :: x in removed ==>
      Edgeless(net.edges, x) || (removeGeometryNodes && IsGeometryNode(net.edges, x))
  }

  /** A node still waiting that looks edgeless or like a geometry node looked so in the input. */
  ghost predicate PendingTraced(net: Net, todo: set<NodeId>, edges: EdgeCont) {
    forall x :: x in todo ==>
      && (Edgeless(edges, x) ==> Edgeless(net.edges, x))
      && (IsGeometryNode(edges, x) ==> IsGeometryNode(net.edges, x))
  }

  /** The ids of the edges that were kept and extended by a join. */
  function KeptIds(joined: seq<(EdgeId, EdgeId)>): set<EdgeId> {
    set p | p in joined :: p.0
  }

  /** The ids of the edges that were appended to another one by a join. */
  function AppendedIds(joined: seq<(EdgeId, EdgeId)>): set<EdgeId> {
    set p | p in joined :: p.1
  }

  /**
   * Only joins change edges: an input edge disappears only by being appended,
   * an edge never extended is unchanged, and an extended edge still starts at
   * its original node and begins with its original geometry.
   */
  ghost predicate EdgeFrame(net: Net, edges: EdgeCont, joined: seq<(EdgeId, EdgeId)>) {
    && (forall k :: k in net.edges && k !in edges ==> k in AppendedIds(joined))
    && (forall k :: k in edges && k !in KeptIds(joined) ==> k in net.edges && edges[k] == net.edges[k])
    && (forall k :: k in edges ==>
          k in net.edges && edges[k].from == net.edges[k].from && net.edges[k].geom <= edges[k].geom)
  }

  /**
   * The state of RemoveUnwishedNodes after it has looked at every node outside
   * `todo`: `removed` holds the nodes removed so far, `edges` the edges left
   * and `joined` the (kept, appended) pairs of the joins done so far.
   */
  ghost predicate Cleaning(net: Net, removeGeometryNodes: bool, todo: set<NodeId>, removed: set<NodeId>,
                           edges: EdgeCont, joined: seq<(EdgeId, EdgeId)>)
  {
    && Progress(net, todo, removed)
    && KeptWanted(net, removeGeometryNodes, todo, removed, edges)
    && EdgelessPending(net, todo, removed, edges)
    && NoDangling(removed, edges)
    && JoinLog(net, edges, joined)
    && OnlyEdgeless(net, removeGeometryNodes, todo, removed, edges, joined)
  }

  /**
   * What RemoveUnwishedNodes has done so far traces back to the input: it
   * removed only unwished nodes and changed edges only by joining them.
   */
  ghost predicate Traced(net: Net, removeGeometryNodes: bool, todo: set<NodeId>, removed: set<NodeId>,
                         edges: EdgeCont, joined: seq<(EdgeId, EdgeId)>)
  {
    && RemovedUnwished(net, removeGeometryNodes, removed)
    && PendingTraced(net, todo, edges)
    && EdgeFrame(net, edges, joined)
  }

  /** No edge touches an edgeless node. */
  lemma EdgelessUntouched(edges: EdgeCont, n: NodeId)
    requires Edgeless(edges, n)
    ensures forall k :: k in edges ==> edges[k].from != n && edges[k].to != n
  {
    forall k | k in edges ensures edges[k].from != n && edges[k].to != n {
      assert k !in OutEdges(edges, n) && k !in InEdges(edges, n);
    }
  }

  /** Removing an edgeless node keeps the loop state. */
  lemma RemoveEdgelessStep(net: Net, removeGeometryNodes: bool, todo: set<NodeId>, removed: set<NodeId>,
                           edges: EdgeCont, joined: seq<(EdgeId, EdgeId)>, n: NodeId)
    requires Cleaning(net, removeGeometryNodes, todo, removed, edges, joined)
    requires n in todo && Edgeless(edges, n)
    ensures Cleaning(net, removeGeometryNodes, todo - {n}, removed + {n}, edges, joined)
  {
    EdgelessUntouched(edges, n);
  }

  /** Keeping a node that is neither edgeless nor to be joined keeps the loop state. */
  lemma KeepStep(net: Net, removeGeometryNodes: bool, todo: set<NodeId>, removed: set<NodeId>,
                 edges: EdgeCont, joined: seq<(EdgeId, EdgeId)>, n: NodeId)
    requires Cleaning(net, removeGeometryNodes, todo, removed, edges, joined)
    requires n in todo && !Edgeless(edges, n) && !(removeGeometryNodes && IsGeometryNode(edges, n))
    ensures Cleaning(net, removeGeometryNodes, todo - {n}, removed, edges, joined)
  {
    if !removeGeometryNodes {
      assert edges == net.edges;
    }
  }

  /** Joining at geometry node n keeps every kept node wanted and every edgeless node pending. */
  lemma JoinKeepsClassification(net: Net, todo: set<NodeId>, removed: set<NodeId>, edges: EdgeCont,
                                n: NodeId, i: EdgeId, o: EdgeId)
    requires n in net.nc.nodes && GeometryAt(edges, n, i, o)
    requires KeptWanted(net, true, todo, removed, edges) && EdgelessPending(net, todo, removed, edges)
    ensures KeptWanted(net, true, todo - {n}, removed + {n}, JoinAt(edges, i, o, net.nc.nodes[n].pos))
    ensures EdgelessPending(net, todo - {n}, removed + {n}, JoinAt(edges, i, o, net.nc.nodes[n].pos))
  {
    var pos := net.nc.nodes[n].pos;
    forall x | x != n
      ensures Edgeless(JoinAt(edges, i, o, pos), x) <==> Edgeless(edges, x)
      ensures IsGeometryNode(JoinAt(edges, i, o, pos), x) ==> IsGeometryNode(edges, x)
    {
      ClassificationKept(edges, n, i, o, pos, x);
    }
  }

  /** Joining at geometry node n leaves no edge touching n or an earlier removed node. */
  lemma JoinKeepsNoDangling(removed: set<NodeId>, edges: EdgeCont, n: NodeId, i: EdgeId, o: EdgeId, pos: Position)
    requires GeometryAt(edges, n, i, o) && NoDangling(removed, edges)
    ensures NoDangling(removed + {n}, JoinAt(edges, i, o, pos))
  {
    var e' := JoinAt(edges, i, o, pos);
    JoinAtFacts(edges, n, i, o, pos);
    forall k | k in e' ensures e'[k].from !in removed + {n} && e'[k].to !in removed + {n} {
      if k != i {
        assert k != o && e'[k] == edges[k];
        assert k !in OutEdges(edges, n) && k !in InEdges(edges, n);
      }
    }
  }

  /** A join removes exactly the appended edge. */
  lemma JoinKeepsLog(net: Net, edges: EdgeCont, joined: seq<(EdgeId, EdgeId)>, n: NodeId, i: EdgeId, o: EdgeId, pos: Position)
    requires GeometryAt(edges, n, i, o) && JoinLog(net, edges, joined)
    ensures JoinLog(net, JoinAt(edges, i, o, pos), joined + [(i, o)])
  {
    var e' := JoinAt(edges, i, o, pos);
    JoinAtFacts(edges, n, i, o, pos);
    assert edges.Keys == e'.Keys + {o};
  }

  /**
   * Joining at geometry node n: n was a geometry node of the input, and every
   * node still waiting keeps its classification traced back to the input.
   */
  lemma JoinKeepsTrace(net: Net, todo: set<NodeId>, removed: set<NodeId>, edges: EdgeCont,
                       n: NodeId, i: EdgeId, o: EdgeId, pos: Position)
    requires n in todo && GeometryAt(edges, n, i, o)
    requires RemovedUnwished(net, true, removed) && PendingTraced(net, todo, edges)
    ensures RemovedUnwished(net, true, removed + {n})
    ensures PendingTraced(net, todo - {n}, JoinAt(edges, i, o, pos))
  {
    assert IsGeometryNode(edges, n);
    forall x | x in todo - {n}
      ensures Edgeless(JoinAt(edges, i, o, pos), x) ==> Edgeless(net.edges, x)
      ensures IsGeometryNode(JoinAt(edges, i, o, pos), x) ==> IsGeometryNode(net.edges, x)
    {
      ClassificationKept(edges, n, i, o, pos, x);
    }
  }

  /** A join extends the kept edge and drops the appended one; every other edge stays. */
  lemma JoinKeepsFrame(net: Net, edges: EdgeCont, joined: seq<(EdgeId, EdgeId)>,
                       n: NodeId, i: EdgeId, o: EdgeId, pos: Position)
    requires GeometryAt(edges, n, i, o) && EdgeFrame(net, edges, joined)
    ensures EdgeFrame(net, JoinAt(edges, i, o, pos), joined + [(i, o)])
  {
    var e' := JoinAt(edges, i, o, pos);
    var joined' := joined + [(i, o)];
    JoinAtFacts(edges, n, i, o, pos);
    assert KeptIds(joined') == KeptIds(joined) + {i};
    assert AppendedIds(joined') == AppendedIds(joined) + {o};
    assert e'[i].from == edges[i].from && edges[i].geom <= e'[i].geom;
  }

  /** Removing a geometry node by joining its two edges keeps the loop state. */
  lemma JoinGeometryStep(net: Net, todo: set<NodeId>, removed: set<NodeId>,
                         edges: EdgeCont, joined: seq<(EdgeId, EdgeId)>, n: NodeId, i: EdgeId, o: EdgeId)
    requires Cleaning(net, true, todo, removed, edges, joined)
    requires n in todo && GeometryAt(edges, n, i, o)
    ensures Cleaning(net, true, todo - {n}, removed + {n},
                     JoinAt(edges, i, o, net.nc.nodes[n].pos), joined + [(i, o)])
  {
    var pos := net.nc.nodes[n].pos;
    JoinKeepsClassification(net, todo, removed, edges, n, i, o);
    JoinKeepsNoDangling(removed, edges, n, i, o, pos);
    JoinKeepsLog(net, edges, joined, n, i, o, pos);
  }

  /** Removing a node that looks edgeless keeps the trace to the input. */
  lemma RemoveEdgelessTraced(net: Net, removeGeometryNodes: bool, todo: set<NodeId>, removed: set<NodeId>,
                             edges: EdgeCont, joined: seq<(EdgeId, EdgeId)>, n: NodeId)
    requires Traced(net, removeGeometryNodes, todo, removed, edges, joined)
    requires n in todo && Edgeless(edges, n)
    ensures Traced(net, removeGeometryNodes, todo - {n}, removed + {n}, edges, joined)
  {
  }

  /** Removing a geometry node by joining its two edges keeps the trace to the input. */
  lemma JoinGeometryTraced(net: Net, todo: set<NodeId>, removed: set<NodeId>,
                           edges: EdgeCont, joined: seq<(EdgeId, EdgeId)>, n: NodeId, i: EdgeId, o: EdgeId)
    requires Traced(net, true, todo, removed, edges, joined)
    requires n in todo && n in net.nc.nodes && GeometryAt(edges, n, i, o)
    ensures Traced(net, true, todo - {n}, removed + {n},
                   JoinAt(edges, i, o, net.nc.nodes[n].pos), joined + [(i, o)])
  {
    var pos := net.nc.nodes[n].pos;
    JoinKeepsTrace(net, todo, removed, edges, n, i, o, pos);
    JoinKeepsFrame(net, edges, joined, n, i, o, pos);
  }

  /**
   * Where joined edges end and whose edges were appended: every edge ends
   * where it ended in the input or where an appended edge ended, and every
   * appended edge started at a removed node.
   */
  ghost predicate Ends(net: Net, removed: set<NodeId>, edges: EdgeCont, joined: seq<(EdgeId, EdgeId)>) {
    && (forall k :: k in edges ==>
          && k in net.edges
          && (|| edges[k].to == net.edges[k].to
              || exists p :: p in joined && p.1 in net.edges && edges[k].to == net.edges[p.1].to))
    && (forall p :: p in joined ==> p.1 in net.edges && net.edges[p.1].from in removed)
  }

  /**
   * Joining at geometry node n makes the kept edge end where the appended
   * edge ended, and the appended edge started at n, which is removed.
   */
  lemma JoinGeometryEnds(net: Net, removed: set<NodeId>, edges: EdgeCont, joined: seq<(EdgeId, EdgeId)>,
                         n: NodeId, i: EdgeId, o: EdgeId, pos: Position)
    requires GeometryAt(edges, n, i, o)
    requires Ends(net, removed, edges, joined) && EdgeFrame(net, edges, joined)
    ensures Ends(net, removed + {n}, JoinAt(edges, i, o, pos), joined + [(i, o)])
  {
    var e' := JoinAt(edges, i, o, pos);
    var joined' := joined + [(i, o)];
    JoinAtFacts(edges, n, i, o, pos);
    assert o in OutEdges(edges, n);
    assert net.edges[o].from == edges[o].from == n;
    assert (i, o) in joined';
    forall k | k in e'
      ensures e'[k].to == net.edges[k].to ||
              exists p :: p in joined' && p.1 in net.edges && e'[k].to == net.edges[p.1].to
    {
      var t := if k == i then o else k;
      assert e'[k].to == edges[t].to;
      if edges[t].to != net.edges[t].to {
        var p :| p in joined && p.1 in net.edges && edges[t].to == net.edges[p.1].to;
        assert p in joined';
      } else if k == i {
        assert e'[k].to == net.edges[(i, o).1].to;
      }
    }
  }

  /**
   * A walk along edges: each edge of `path` ends where the next one starts,
   * and every node the walk passes through lies in `via`.
   */
  ghost predicate Chain(edges: EdgeCont, via: set<NodeId>, path: seq<EdgeId>) {
    && |path| > 0
    && (forall j :: 0 <= j < |path| ==> path[j] in edges)
    && (forall j :: 0 <= j < |path| - 1 ==>
          edges[path[j]].to == edges[path[j + 1]].from && edges[path[j]].to in via)
  }

  /** A walk through some nodes is a walk through any larger set of nodes. */
  lemma ChainWiden(edges: EdgeCont, via: set<NodeId>, via': set<NodeId>, path: seq<EdgeId>)
    requires Chain(edges, via, path) && via <= via'
    ensures Chain(edges, via', path)
  {
  }

  /** Two walks, the first ending where the second starts, make one walk through that node. */
  lemma ChainJoin(edges: EdgeCont, via: set<NodeId>, p: seq<EdgeId>, q: seq<EdgeId>)
    requires Chain(edges, via, p) && Chain(edges, via, q)
    requires edges[p[|p| - 1]].to == edges[q[0]].from && edges[q[0]].from in via
    ensures Chain(edges, via, p + q)
    ensures (p + q)[0] == p[0] && (p + q)[|p + q| - 1] == q[|q| - 1]
  {
    var pq := p + q;
    forall j | 0 <= j < |pq| - 1
      ensures edges[pq[j]].to == edges[pq[j + 1]].from && edges[pq[j]].to in via
    {
      if j < |p| - 1 {
        assert pq[j] == p[j] && pq[j + 1] == p[j + 1];
      } else if j == |p| - 1 {
        assert pq[j] == p[|p| - 1] && pq[j + 1] == q[0];
      } else {
        assert pq[j] == q[j - |p|] && pq[j + 1] == q[j - |p| + 1];
      }
    }
  }

  /**
   * Every edge left is the first edge of a walk in the input through removed
   * nodes, recorded in `route`, and ends where that walk ends.
   */
  ghost predicate Routed(net: Net, removed: set<NodeId>, edges: EdgeCont, route: map<EdgeId, seq<EdgeId>>) {
    forall k :: k in edges ==>
      && k in route
      && Chain(net.edges, removed, route[k])
      && route[k][0] == k
      && edges[k].to == net.edges[route[k][|route[k]| - 1]].to
  }

  /** Before any change, every input edge is a walk of its own. */
  lemma RoutedInitially(net: Net)
    ensures Routed(net, {}, net.edges, map k | k in net.edges :: [k])
  {
  }

  /** Removing a node without touching the edges keeps every edge routed. */
  lemma RoutedGrow(net: Net, removed: set<NodeId>, edges: EdgeCont, route: map<EdgeId, seq<EdgeId>>, n: NodeId)
    requires Routed(net, removed, edges, route)
    ensures Routed(net, removed + {n}, edges, route)
  {
    forall k | k in edges
      ensures Chain(net.edges, removed + {n}, route[k])
    {
      ChainWiden(net.edges, removed, removed + {n}, route[k]);
    }
  }

  /**
   * Joining at geometry node n routes the kept edge along its own walk and
   * then the appended edge's walk, which meet at n.
   */
  lemma JoinGeometryRouted(net: Net, removed: set<NodeId>, edges: EdgeCont, joined: seq<(EdgeId, EdgeId)>,
                           route: map<EdgeId, seq<EdgeId>>, n: NodeId, i: EdgeId, o: EdgeId, pos: Position)
    requires GeometryAt(edges, n, i, o)
    requires Routed(net, removed, edges, route) && EdgeFrame(net, edges, joined)
    ensures Routed(net, removed + {n}, JoinAt(edges, i, o, pos), route[i := route[i] + route[o]])
  {
    var e' := JoinAt(edges, i, o, pos);
    var route' := route[i := route[i] + route[o]];
    var via := removed + {n};
    JoinAtFacts(edges, n, i, o, pos);
    assert i in InEdges(edges, n) && o in OutEdges(edges, n);
    ChainWiden(net.edges, removed, via, route[i]);
    ChainWiden(net.edges, removed, via, route[o]);
    assert net.edges[route[o][0]].from == edges[o].from == n;
    ChainJoin(net.edges, via, route[i], route[o]);
    forall k | k in e'
      ensures k in route' && Chain(net.edges, via, route'[k]) && route'[k][0] == k
      ensures e'[k].to == net.edges[route'[k][|route'[k]| - 1]].to
    {
      if k != i {
        ChainWiden(net.edges, removed, via, route[k]);
      }
    }
  }

  /** The walk behind every edge left, stated for the result. */
  lemma RoutedDone(net: Net, removed: set<NodeId>, edges: EdgeCont, route: map<EdgeId, seq<EdgeId>>, gone: set<NodeId>)
    requires Routed(net, removed, edges, route) && gone == removed
    ensures forall k :: k in edges ==>
      exists path :: Chain(net.edges, gone, path) && path[0] == k && edges[k].to == net.edges[path[|path| - 1]].to
  {
    forall k | k in edges
      ensures exists path :: Chain(net.edges, gone, path) && path[0] == k && edges[k].to == net.edges[path[|path| - 1]].to
    {
      var path := route[k];
      assert Chain(net.edges, gone, path);
    }
  }

  /** Removing a node without touching the edges keeps every edge's end traced. */
  lemma EndsGrow(net: Net, removed: set<NodeId>, edges: EdgeCont, joined: seq<(EdgeId, EdgeId)>, n: NodeId)
    requires Ends(net, removed, edges, joined)
    ensures Ends(net, removed + {n}, edges, joined)
  {
  }

  /** Where the edges end once every node has been looked at, stated for the result. */
  lemma EndsDone(net: Net, removed: set<NodeId>, edges: EdgeCont, joined: seq<(EdgeId, EdgeId)>, gone: set<NodeId>)
    requires Ends(net, removed, edges, joined) && gone == removed
    ensures forall p :: p in joined ==> net.edges[p.1].from in gone
    ensures forall k :: k in edges ==>
      edges[k].to == net.edges[k].to || exists p :: p in joined && edges[k].to == net.edges[p.1].to
  {
  }

  /** What the loop state says once every node has been looked at. */
  lemma CleaningDone(net: Net, removeGeometryNodes: bool, removed: set<NodeId>,
                     edges: EdgeCont, joined: seq<(EdgeId, EdgeId)>)
    requires Cleaning(net, removeGeometryNodes, {}, removed, edges, joined)
    ensures removed <= net.nc.nodes.Keys
    ensures |net.nc.nodes - removed| == |net.nc.nodes| - |removed|
    ensures net.nc.nodes.Keys - (net.nc.nodes - removed).Keys == removed
    ensures forall x :: x in net.nc.nodes && Edgeless(net.edges, x) ==> x in removed
    ensures forall x :: x in net.nc.nodes && x !in removed ==> !Edgeless(edges, x)
    ensures removeGeometryNodes ==> forall x :: x in net.nc.nodes && x !in removed ==> !IsGeometryNode(edges, x)
    ensures !removeGeometryNodes ==> edges == net.edges && joined == []
    ensures !removeGeometryNodes ==> forall x :: x in removed <==> x in net.nc.nodes && Edgeless(net.edges, x)
    ensures NoDangling(removed, edges) && JoinLog(net, edges, joined)
  {
    RemoveKeysSize(net.nc.nodes, removed);
  }

  /**
   * The loop of RemoveUnwishedNodes: looks at every node once, removes the
   * unwished ones and joins the edges of removed geometry nodes. Returns the
   * removed nodes, the resulting edges and the joins made.
   */
  method CleanNodes(net: Net, removeGeometryNodes: bool)
    returns (removed: set<NodeId>, edges: EdgeCont, joined: seq<(EdgeId, EdgeId)>, ghost route: map<EdgeId, seq<EdgeId>>)
    ensures Cleaning(net, removeGeometryNodes, {}, removed, edges, joined)
    ensures Traced(net, removeGeometryNodes, {}, removed, edges, joined)
    ensures Ends(net, removed, edges, joined)
    ensures Routed(net, removed, edges, route)
  {
    var nodes := net.nc.nodes;
    edges := net.edges;
    removed := {};
    joined := [];
    route := map k | k in net.edges :: [k];
    RoutedInitially(net);
    var todo := nodes.Keys;
    while todo != {}
      invariant Cleaning(net, removeGeometryNodes, todo, removed, edges, joined)
      invariant Traced(net, removeGeometryNodes, todo, removed, edges, joined)
      invariant Ends(net, removed, edges, joined)
      invariant Routed(net, removed, edges, route)
      decreases todo
    {
      var n :| n in todo;
      if Edgeless(edges, n) {
        RemoveEdgelessStep(net, removeGeometryNodes, todo, removed, edges, joined, n);
        RemoveEdgelessTraced(net, removeGeometryNodes, todo, removed, edges, joined, n);
        EndsGrow(net, removed, edges, joined, n);
        RoutedGrow(net, removed, edges, route, n);
        removed := removed + {n};
      } else if removeGeometryNodes && IsGeometryNode(edges, n) {
        var i, o :| i in edges && o in edges && GeometryAt(edges, n, i, o);
        JoinGeometryStep(net, todo, removed, edges, joined, n, i, o);
        JoinGeometryEnds(net, removed, edges, joined, n, i, o, nodes[n].pos);
        JoinGeometryTraced(net, todo, removed, edges, joined, n, i, o);
        JoinGeometryRouted(net, removed, edges, joined, route, n, i, o, nodes[n].pos);
        route := route[i := route[i] + route[o]];
        edges := JoinAt(edges, i, o, nodes[n].pos);
        joined := joined + [(i, o)];
        removed := removed + {n};
      } else {
        KeepStep(net, removeGeometryNodes, todo, removed, edges, joined, n);
      }
      todo := todo - {n};
    }
  }

  /**
   * Removes the nodes that have no incoming and no outgoing edge and, when
   * `removeGeometryNodes` is set, the geometry nodes, whose two edges are
   * joined into one. Removed nodes leave the set of nodes controlled by
   * traffic lights. Returns the number of removed nodes and, for every join,
   * the pair (kept edge, appended edge). Every edge left starts a walk of
   * input edges through removed nodes and ends where that walk ends.
   */
  method RemoveUnwishedNodes(net: Net, removeGeometryNodes: bool)
    returns (r: Net, count: nat, joined: seq<(EdgeId, EdgeId)>)
    ensures r.nc == net.nc.(nodes := r.nc.nodes)
    ensures forall x :: x in r.nc.nodes ==> x in net.nc.nodes && r.nc.nodes[x] == net.nc.nodes[x]
    ensures count == |net.nc.nodes| - |r.nc.nodes|
    ensures r.tlsControlled == net.tlsControlled - (net.nc.nodes.Keys - r.nc.nodes.Keys)
    ensures forall x :: x in net.nc.nodes && Edgeless(net.edges, x) ==> x !in r.nc.nodes
    ensures forall x :: x in r.nc.nodes ==> !Edgeless(r.edges, x)
    ensures removeGeometryNodes ==> forall x :: x in r.nc.nodes ==> !IsGeometryNode(r.edges, x)
    ensures !removeGeometryNodes ==> r.edges == net.edges && joined == []
    ensures !removeGeometryNodes ==>
      forall x :: x in r.nc.nodes <==> x in net.nc.nodes && !Edgeless(net.edges, x)
    ensures forall k :: k in r.edges ==>
      r.edges[k].from !in net.nc.nodes.Keys - r.nc.nodes.Keys && r.edges[k].to !in net.nc.nodes.Keys - r.nc.nodes.Keys
    ensures r.edges.Keys <= net.edges.Keys
    ensures |r.edges| + |joined| == |net.edges|
    ensures forall p :: p in joined ==> p.0 in net.edges && p.1 in net.edges && p.1 !in r.edges && p.0 != p.1
    ensures forall p :: p in joined ==> net.edges[p.1].from in net.nc.nodes.Keys - r.nc.nodes.Keys
    ensures forall k :: k in r.edges ==>
      r.edges[k].to == net.edges[k].to || exists p :: p in joined && r.edges[k].to == net.edges[p.1].to
    ensures forall k :: k in r.edges ==>
      exists path :: Chain(net.edges, net.nc.nodes.Keys - r.nc.nodes.Keys, path) && path[0] == k &&
        r.edges[k].to == net.edges[path[|path| - 1]].to
    ensures forall x :: x in net.nc.nodes && x !in r.nc.nodes ==>
      Edgeless(net.edges, x) || (removeGeometryNodes && IsGeometryNode(net.edges, x))
    ensures forall k :: k in net.edges && k !in r.edges ==> k in AppendedIds(joined)
    ensures forall k :: k in r.edges && k !in KeptIds(joined) ==> r.edges[k] == net.edges[k]
    ensures forall k :: k in r.edges ==>
      r.edges[k].from == net.edges[k].from && net.edges[k].geom <= r.edges[k].geom
  {
    var removed, edges;
    ghost var route;
    removed, edges, joined, route := CleanNodes(net, removeGeometryNodes);
    CleaningDone(net, removeGeometryNodes, removed, edges, joined);
    EndsDone(net, removed, edges, joined, net.nc.nodes.Keys - (net.nc.nodes - removed).Keys);
    RoutedDone(net, removed, edges, route, net.nc.nodes.Keys - (net.nc.nodes - removed).Keys);
    r := Net(net.nc.(nodes := net.nc.nodes - removed), edges, net.tlsControlled - removed);
    count := |removed|;
  }
}

=== FILE: net_elements.dfy ===
/** The road-network elements the node container works on, abstracted to plain records. */
module NetElements {

  type NodeId = string
  type EdgeId = string

  /** A position in the plane; SUMO's floating-point coordinates become integers. */
  datatype Position = Position(x: int, y: int)

  /** The square of the euclidean distance, so that "closer than d" stays in integers. */
  function SquaredDistance(p: Position, q: Position): int
  {
    (p.x - q.x) * (p.x - q.x) + (p.y - q.y) * (p.y - q.y)
  }

  /** Distance does not depend on the direction in which it is measured. */
  lemma SquaredDistanceSymmetric(p: Position, q: Position)
    ensures SquaredDistance(p, q) == SquaredDistance(q, p)
  {
    assert (p.x - q.x) * (p.x - q.x) == (q.x - p.x) * (q.x - p.x);
    assert (p.y - q.y) * (p.y - q.y) == (q.y - p.y) * (q.y - p.y);
  }

  /** A network node: its id and its position (districts are not modelled). */
  datatype Node = Node(id: NodeId, pos: Position)

  /** A directed edge between two nodes, with the inner points of its geometry. */
  datatype Edge = Edge(id: EdgeId, from: NodeId, to: NodeId, geom: seq<Position>)

  /** The edge container, keyed by edge id. */
  type EdgeCont = map<EdgeId, Edge>
}

=== FILE: node_clusters.dfy ===
/**
 * Finding clusters of junctions to join: nodes that are connected by an edge
 * and lie closer together than a maximum distance end up in one cluster, and
 * nodes excluded from joining are taken out of every cluster.
 */
module NodeClusters {
  import opened NetElements

  /** Whether some edge runs between x and y, in either direction. */
  predicate Linked(edges: EdgeCont, x: NodeId, y: NodeId) {
    exists k :: k in edges &&
      ((edges[k].from == x && edges[k].to == y) || (edges[k].from == y && edges[k].to == x))
  }

  /**
   * Whether x and y are two different stored nodes, connected by an edge and
   * closer than `maxDist` (compared as squares, so that it stays in integers).
   */
  predicate Near(nodes: map<NodeId, Node>, edges: EdgeCont, maxDist: nat, x: NodeId, y: NodeId) {
    && x != y
    && x in nodes && y in nodes
    && Linked(edges, x, y)
    && SquaredDistance(nodes[x].pos, nodes[y].pos) < maxDist * maxDist
  }

  /** The pairs of near nodes, as a relation. */
  function NearRelation(nodes: map<NodeId, Node>, edges: EdgeCont, maxDist: nat): (adj: set<(NodeId, NodeId)>)
    ensures forall x, y :: (x, y) in adj <==> Near(nodes, edges, maxDist, x, y)
  {
    set x, y | x in nodes.Keys && y in nodes.Keys && Near(nodes, edges, maxDist, x, y) :: (x, y)
  }

  /** The near relation is symmetric and irreflexive, and relates stored nodes only. */
  lemma NearRelationShape(nodes: map<NodeId, Node>, edges: EdgeCont, maxDist: nat)
    ensures Shaped(NearRelation(nodes, edges, maxDist), nodes.Keys)
  {
    var adj := NearRelation(nodes, edges, maxDist);
    forall p | p in adj ensures (p.1, p.0) in adj {
      SquaredDistanceSymmetric(nodes[p.0].pos, nodes[p.1].pos);
    }
  }

  /** An undirected graph over `vertices`, given as a symmetric irreflexive set of pairs. */
  ghost predicate Shaped(adj: set<(NodeId, NodeId)>, vertices: set<NodeId>) {
    forall p :: p in adj ==> p.0 != p.1 && p.0 in vertices && p.1 in vertices && (p.1, p.0) in adj
  }

  /** The elements of a sequence, as a set. */
  function Members(s: seq<NodeId>): set<NodeId> {
    set x | x in s
  }

  ghost predicate Distinct(s: seq<NodeId>) {
    forall i, j :: 0 <= i < j < |s| ==> s[i] != s[j]
  }

  /** The element at index i is adjacent to an element before it. */
  ghost predicate LinkedBack(adj: set<(NodeId, NodeId)>, s: seq<NodeId>, i: nat)
    requires i < |s|
  {
    exists j :: 0 <= j < i && (s[j], s[i]) in adj
  }

  /** Every element after the first is adjacent to an earlier one, so the elements are connected. */
  ghost predicate Spanning(adj: set<(NodeId, NodeId)>, s: seq<NodeId>) {
    forall i :: 0 < i < |s| ==> LinkedBack(adj, s, i)
  }

  /** Every node adjacent to an element is itself an element. */
  ghost predicate Closed(adj: set<(NodeId, NodeId)>, s: seq<NodeId>) {
    forall j, y :: 0 <= j < |s| && (s[j], y) in adj ==> y in s
  }

  ghost predicate ClosedSet(adj: set<(NodeId, NodeId)>, v: set<NodeId>) {
    forall x, y :: x in v && (x, y) in adj ==> y in v
  }

  /**
   * A cluster: at least two distinct vertices, connected through adjacent
   * pairs, and containing every vertex adjacent to one of its members.
   */
  ghost predicate IsCluster(adj: set<(NodeId, NodeId)>, vertices: set<NodeId>, s: seq<NodeId>) {
    && |s| >= 2
    && Distinct(s)
    && (forall i :: 0 <= i < |s| ==> s[i] in vertices)
    && Spanning(adj, s)
    && Closed(adj, s)
  }

  /** The facts about a partly grown component that the search keeps. */
  ghost predicate Growing(adj: set<(NodeId, NodeId)>, vertices: set<NodeId>, visited: set<NodeId>, s: seq<NodeId>) {
    && Distinct(s)
    && (forall i :: 0 <= i < |s| ==> s[i] in vertices && s[i] !in visited)
    && Spanning(adj, s)
  }

  lemma GrowingAppend(adj: set<(NodeId, NodeId)>, vertices: set<NodeId>, visited: set<NodeId>,
                      s: seq<NodeId>, j: nat, y: NodeId)
    requires Growing(adj, vertices, visited, s)
    requires j < |s| && (s[j], y) in adj
    requires y in vertices && y !in visited && y !in s
    ensures Growing(adj, vertices, visited, s + [y])
  {
    var t := s + [y];
    forall i | 0 < i < |t| ensures LinkedBack(adj, t, i) {
      if i == |s| {
        assert t[j] == s[j] && t[i] == y;
        assert 0 <= j < i && (t[j], t[i]) in adj;
      } else {
        assert LinkedBack(adj, s, i);
        var k :| 0 <= k < i && (s[k], s[i]) in adj;
        assert t[k] == s[k] && t[i] == s[i];
        assert 0 <= k < i && (t[k], t[i]) in adj;
      }
    }
  }

  /**
   * Appends to `comp` every vertex adjacent to `comp[idx]` that is not yet in
   * it, in some order; the result keeps `comp` as a prefix.
   */
  method AppendNeighbours(adj: set<(NodeId, NodeId)>, vertices: set<NodeId>, visited: set<NodeId>,
                          comp: seq<NodeId>, idx: nat)
    returns (grown: seq<NodeId>)
    requires Shaped(adj, vertices) && ClosedSet(adj, visited)
    requires idx < |comp|
    requires Growing(adj, vertices, visited, comp)
    ensures |grown| >= |comp| && grown[..|comp|] == comp
    ensures Growing(adj, vertices, visited, grown)
    ensures forall y :: (comp[idx], y) in adj ==> y in grown
  {
    var x := comp[idx];
    grown := comp;
    var pending := (set p | p in adj && p.0 == x :: p.1) - Members(comp);
    while pending != {}
      invariant |grown| >= |comp| && grown[..|comp|] == comp
      invariant Growing(adj, vertices, visited, grown)
      invariant forall y :: y in pending ==> y !in grown && (x, y) in adj
      invariant forall y :: (x, y) in adj ==> y in grown || y in pending
      decreases pending
    {
      var y :| y in pending;
      assert grown[idx] == x;
      assert (y, x) in adj;
      GrowingAppend(adj, vertices, visited, grown, idx, y);
      grown := grown + [y];
      pending := pending - {y};
    }
  }

  /** The members of a prefix are members of the whole. */
  lemma PrefixMembers(before: seq<NodeId>, after: seq<NodeId>)
    requires |after| >= |before| && after[..|before|] == before
    ensures Members(before) <= Members(after)
    ensures |after| == |before| ==> after == before
  {
    forall z | z in Members(before) ensures z in Members(after) {
      var i :| 0 <= i < |before| && before[i] == z;
      assert after[i] == z;
    }
    if |after| == |before| {
      assert after == after[..|before|];
    }
  }

  /**
   * Collects the vertices reachable from `start`, in the order they are
   * discovered. `visited` holds the components found earlier.
   */
  method Component(adj: set<(NodeId, NodeId)>, vertices: set<NodeId>, start: NodeId, visited: set<NodeId>)
    returns (comp: seq<NodeId>)
    requires Shaped(adj, vertices) && ClosedSet(adj, visited)
    requires start in vertices && start !in visited
    ensures |comp| >= 1 && comp[0] == start
    ensures Growing(adj, vertices, visited, comp)
    ensures Closed(adj, comp)
  {
    comp := [start];
    var idx := 0;
    while idx < |comp|
      invariant 0 <= idx <= |comp|
      invariant 1 <= |comp| && comp[0] == start
      invariant Growing(adj, vertices, visited, comp)
      invariant forall j, y :: 0 <= j < idx && (comp[j], y) in adj ==> y in comp
      decreases vertices - Members(comp), |comp| - idx
    {
      ghost var before := comp;
      comp := AppendNeighbours(adj, vertices, visited, comp, idx);
      PrefixMembers(before, comp);
      if |comp| > |before| {
        var added := comp[|before|];
        assert added !in Members(before);
        assert added in Members(comp);
      }
      forall j, y | 0 <= j < idx + 1 && (comp[j], y) in adj
        ensures y in comp
      {
        assert comp[j] == before[j];
        if j < idx {
          assert y in before;
          assert y in Members(before);
        }
      }
      idx := idx + 1;
    }
  }

  /** A component that is a single vertex means that vertex is adjacent to none. */
  lemma SingletonComponent(adj: set<(NodeId, NodeId)>, comp: seq<NodeId>, y: NodeId)
    requires |comp| == 1 && Closed(adj, comp)
    requires forall p :: p in adj ==> p.0 != p.1
    ensures (comp[0], y) !in adj
  {
    assert forall z :: (comp[0], z) in adj ==> z in comp;
    assert forall z :: z in comp ==> z == comp[0];
  }

  /** The invariant of the cluster search, over the vertices visited so far. */
  ghost predicate SearchState(adj: set<(NodeId, NodeId)>, vertices: set<NodeId>,
                              clusters: seq<seq<NodeId>>, visited: set<NodeId>) {
    && ClosedSet(adj, visited)
    && (forall i :: 0 <= i < |clusters| ==> IsCluster(adj, vertices, clusters[i]))
    && (forall i, x :: 0 <= i < |clusters| && x in clusters[i] ==> x in visited)
    && (forall i, j, x :: 0 <= i < j < |clusters| && x in clusters[i] ==> x !in clusters[j])
    && (forall x, y :: x in visited && (x, y) in adj ==> exists i :: 0 <= i < |clusters| && x in clusters[i])
  }

  /** Records a freshly found component: as a cluster if it has two vertices or more. */
  method AddComponent(adj: set<(NodeId, NodeId)>, vertices: set<NodeId>,
                      clusters: seq<seq<NodeId>>, visited: set<NodeId>, comp: seq<NodeId>)
    returns (clusters': seq<seq<NodeId>>, visited': set<NodeId>)
    requires Shaped(adj, vertices)
    requires SearchState(adj, vertices, clusters, visited)
    requires |comp| >= 1 && Growing(adj, vertices, visited, comp) && Closed(adj, comp)
    ensures visited' == visited + Members(comp)
    ensures SearchState(adj, vertices, clusters', visited')
  {
    visited' := visited + Members(comp);
    if |comp| >= 2 {
      clusters' := clusters + [comp];
    } else {
      clusters' := clusters;
    }
    forall x, y | x in visited' && (x, y) in adj
      ensures y in visited'
    {
      if x !in visited {
        var i :| 0 <= i < |comp| && comp[i] == x;
      }
    }
    forall x, y | x in visited' && (x, y) in adj
      ensures exists i :: 0 <= i < |clusters'| && x in clusters'[i]
    {
      if x in visited {
        var i :| 0 <= i < |clusters| && x in clusters[i];
        assert clusters'[i] == clusters[i];
      } else {
        var i :| 0 <= i < |comp| && comp[i] == x;
        if |comp| == 1 {
          SingletonComponent(adj, comp, y);
          assert false;
        }
        assert clusters'[|clusters|] == comp;
      }
    }
  }

  /**
   * The connected components of at least two vertices of the graph `adj`.
   * Components are pairwise disjoint, and every vertex with a neighbour lies
   * in one of them.
   */
  method Components(adj: set<(NodeId, NodeId)>, vertices: set<NodeId>) returns (clusters: seq<seq<NodeId>>)
    requires Shaped(adj, vertices)
    ensures SearchState(adj, vertices, clusters, vertices)
  {
    clusters := [];
    var visited: set<NodeId> := {};
    var todo := vertices;
    while todo != {}
      invariant todo <= vertices
      invariant vertices - todo <= visited <= vertices
      invariant SearchState(adj, vertices, clusters, visited)
      decreases todo
    {
      var start :| start in todo;
      todo := todo - {start};
      if start !in visited {
        var comp := Component(adj, vertices, start, visited);
        clusters, visited := AddComponent(adj, vertices, clusters, visited, comp);
      }
    }
  }

  /**
   * Builds the node clusters: the groups of at least two nodes that are
   * connected through pairs of near nodes. Every cluster contains each node
   * near one of its members, clusters are pairwise disjoint, and every node
   * near another one belongs to a cluster.
   */
  method GenerateNodeClusters(nodes: map<NodeId, Node>, edges: EdgeCont, maxDist: nat)
    returns (clusters: seq<seq<NodeId>>)
    ensures forall i :: 0 <= i < |clusters| ==> IsCluster(NearRelation(nodes, edges, maxDist), nodes.Keys, clusters[i])
    ensures forall i, j, x :: 0 <= i < j < |clusters| && x in clusters[i] ==> x !in clusters[j]
    ensures forall x, y :: Near(nodes, edges, maxDist, x, y) ==>
      exists i :: 0 <= i < |clusters| && x in clusters[i]
  {
    var adj := NearRelation(nodes, edges, maxDist);
    NearRelationShape(nodes, edges, maxDist);
    clusters := Components(adj, nodes.Keys);
    forall x, y | Near(nodes, edges, maxDist, x, y)
      ensures exists i :: 0 <= i < |clusters| && x in clusters[i]
    {
      assert (x, y) in adj;
    }
  }

  /**
   * The clusters that are actually joined: each generated cluster without the
   * nodes excluded from joining, kept only if at least two nodes remain.
   */
  function JoinCandidates(clusters: seq<seq<NodeId>>, exclusions: set<NodeId>): (r: seq<set<NodeId>>)
    ensures |r| <= |clusters|
    ensures forall i :: 0 <= i < |r| ==> |r[i]| >= 2 && r[i] !! exclusions
    decreases |clusters|
  {
    if |clusters| == 0 then []
    else
      var kept := Members(clusters[0]) - exclusions;
      var rest := JoinCandidates(clusters[1..], exclusions);
      if |kept| >= 2 then [kept] + rest else rest
  }

  /** Each joined cluster is a generated cluster minus the excluded ids. */
  lemma {:induction false} JoinCandidatesSound(clusters: seq<seq<NodeId>>, exclusions: set<NodeId>, c: set<NodeId>)
    requires c in JoinCandidates(clusters, exclusions)
    ensures exists j :: 0 <= j < |clusters| && c == Members(clusters[j]) - exclusions
    decreases |clusters|
  {
    var kept := Members(clusters[0]) - exclusions;
    if c == kept {
      assert c == Members(clusters[0]) - exclusions;
    } else {
      JoinCandidatesSound(clusters[1..], exclusions, c);
      var j :| 0 <= j < |clusters[1..]| && c == Members(clusters[1..][j]) - exclusions;
      assert clusters[1..][j] == clusters[j + 1];
    }
  }

  /** Every generated cluster that keeps two nodes or more after the exclusions is joined. */
  lemma {:induction false} JoinCandidatesComplete(clusters: seq<seq<NodeId>>, exclusions: set<NodeId>, j: nat)
    requires j < |clusters| && |Members(clusters[j]) - exclusions| >= 2
    ensures Members(clusters[j]) - exclusions in JoinCandidates(clusters, exclusions)
    decreases |clusters|
  {
    if j > 0 {
      assert clusters[1..][j - 1] == clusters[j];
      JoinCandidatesComplete(clusters[1..], exclusions, j - 1);
    }
  }

  /**
   * The ids excluded from joining never take part in a joined cluster, and
   * every joined cluster consists of stored nodes of one generated cluster.
   */
  lemma ExcludedNeverJoined(
    nodes: map<NodeId, Node>, edges: EdgeCont, maxDist: nat,
    clusters: seq<seq<NodeId>>, exclusions: set<NodeId>, c: set<NodeId>)
    requires forall i :: 0 <= i < |clusters| ==> IsCluster(NearRelation(nodes, edges, maxDist), nodes.Keys, clusters[i])
    requires c in JoinCandidates(clusters, exclusions)
    ensures c !! exclusions && c <= nodes.Keys && |c| >= 2
  {
    JoinCandidatesSound(clusters, exclusions, c);
    var j :| 0 <= j < |clusters| && c == Members(clusters[j]) - exclusions;
    assert IsCluster(NearRelation(nodes, edges, maxDist), nodes.Keys, clusters[j]);
  }
}

=== FILE: node_container.dfy ===
/**
 * The container of nodes used while a road network is built: a registry of
 * nodes keyed by id, plus the bookkeeping for nodes that must not be joined
 * and for clusters of nodes that must be joined.
 */
module NodeContainer {
  import opened Common
  import opened NetElements

  /**
   * The container's state.
   * - nodes: the stored nodes by id
   * - joinExclusions: ids of nodes which shall not be joined
   * - clusters2Join: loaded sets of node ids to join
   * - joined: the ids found in loaded join clusters, kept for error checking
   */
  datatype NodeCont = NodeCont(
    nodes: map<NodeId, Node>,
    joinExclusions: set<NodeId>,
    clusters2Join: seq<set<NodeId>>,
    joined: set<NodeId>)

  /** The result of an insertion or removal: whether it happened, and the new container. */
  datatype Update = Update(ok: bool, cont: NodeCont)

  /** The result of extracting a node: the node that was stored, if any, and the new container. */
  datatype Extracted = Extracted(node: Option<Node>, cont: NodeCont)

  /** The result of adding join exclusions: the new container and the ids that were ignored. */
  datatype ExclusionUpdate = ExclusionUpdate(cont: NodeCont, ignored: seq<NodeId>)

  /** The result of adding a join cluster: whether it was accepted, and the new container. */
  datatype ClusterUpdate = ClusterUpdate(accepted: bool, cont: NodeCont)

  /**
   * The container's invariant: every node is stored under its own id, every
   * loaded join cluster is recorded in `joined`, and no id is both excluded
   * from joining and part of a loaded join cluster.
   */
  ghost predicate Valid(c: NodeCont) {
    && (forall id :: id in c.nodes ==> c.nodes[id].id == id)
    && c.joinExclusions !! c.joined
    && (forall i :: 0 <= i < |c.clusters2Join| ==> c.clusters2Join[i] <= c.joined)
  }

  /** The join bookkeeping of two containers is the same. */
  ghost predicate SameJoinState(c: NodeCont, d: NodeCont) {
    && c.joinExclusions == d.joinExclusions
    && c.clusters2Join == d.clusters2Join
    && c.joined == d.joined
  }

  /** A freshly constructed container. */
  function Empty(): (c: NodeCont)
    ensures Valid(c)
    ensures Size(c) == 0
    ensures forall id :: Retrieve(c, id).None?
  {
    NodeCont(map[], {}, [], {})
  }

  /** The number of stored nodes. */
  function Size(c: NodeCont): nat {
    |c.nodes|
  }

  /** The node stored under `id`, or None if there is none. */
  function Retrieve(c: NodeCont, id: NodeId): (r: Option<Node>)
    ensures r.Some? <==> id in c.nodes
    ensures Valid(c) && r.Some? ==> r.value.id == id
  {
    if id in c.nodes then Some(c.nodes[id]) else None
  }

  /** Whether some stored node lies at `pos`. */
  predicate PositionTaken(c: NodeCont, pos: Position) {
    exists id :: id in c.nodes && c.nodes[id].pos == pos
  }

  /**
   * Stores `node` unless a node with the same id or at the same position is
   * already stored; a refused insertion leaves the container unchanged.
   */
  function InsertNode(c: NodeCont, node: Node): (r: Update)
    ensures r.ok <==> Retrieve(c, node.id).None? && !PositionTaken(c, node.pos)
    ensures r.ok ==> Retrieve(r.cont, node.id) == Some(node) && Size(r.cont) == Size(c) + 1
    ensures !r.ok ==> r.cont == c
    ensures forall id :: id != node.id ==> Retrieve(r.cont, id) == Retrieve(c, id)
    ensures SameJoinState(c, r.cont)
    ensures Valid(c) ==> Valid(r.cont)
  {
    if node.id in c.nodes || PositionTaken(c, node.pos) then Update(false, c)
    else Update(true, c.(nodes := c.nodes[node.id := node]))
  }

  /** Builds a node from `id` and `pos` and stores it under the same rule as InsertNode. */
  function Insert(c: NodeCont, id: NodeId, pos: Position): (r: Update)
    ensures r.ok <==> Retrieve(c, id).None? && !PositionTaken(c, pos)
    ensures r.ok ==> Retrieve(r.cont, id) == Some(Node(id, pos)) && Size(r.cont) == Size(c) + 1
    ensures !r.ok ==> r.cont == c
    ensures forall other :: other != id ==> Retrieve(r.cont, other) == Retrieve(c, other)
    ensures SameJoinState(c, r.cont)
    ensures Valid(c) ==> Valid(r.cont)
  {
    InsertNode(c, Node(id, pos))
  }

  /**
   * Stores a node known only by its id: only a duplicate id is refused, a
   * node may be added at a position another node already occupies. The
   * position is supplied by the caller.
   */
  function InsertId(c: NodeCont, id: NodeId, pos: Position): (r: Update)
    ensures r.ok <==> Retrieve(c, id).None?
    ensures r.ok ==> Retrieve(r.cont, id) == Some(Node(id, pos)) && Size(r.cont) == Size(c) + 1
    ensures !r.ok ==> r.cont == c
    ensures forall other :: other != id ==> Retrieve(r.cont, other) == Retrieve(c, other)
    ensures SameJoinState(c, r.cont)
    ensures Valid(c) ==> Valid(r.cont)
  {
    if id in c.nodes then Update(false, c)
    else Update(true, c.(nodes := c.nodes[id := Node(id, pos)]))
  }

  /** Removes the node with the given id from the container and hands it back. */
  function Extract(c: NodeCont, id: NodeId): (r: Extracted)
    ensures r.node == Retrieve(c, id)
    ensures Retrieve(r.cont, id).None?
    ensures forall other :: other != id ==> Retrieve(r.cont, other) == Retrieve(c, other)
    ensures Size(r.cont) == if r.node.Some? then Size(c) - 1 else Size(c)
    ensures SameJoinState(c, r.cont)
    ensures Valid(c) ==> Valid(r.cont)
  {
    Extracted(Retrieve(c, id), c.(nodes := c.nodes - {id}))
  }

  /** Removes (and discards) the node with the given id; true iff it was stored. */
  function Erase(c: NodeCont, id: NodeId): (r: Update)
    ensures r.ok <==> Retrieve(c, id).Some?
    ensures Retrieve(r.cont, id).None?
    ensures forall other :: other != id ==> Retrieve(r.cont, other) == Retrieve(c, other)
    ensures r.ok ==> Size(r.cont) == Size(c) - 1
    ensures !r.ok ==> r.cont == c
    ensures SameJoinState(c, r.cont)
    ensures Valid(c) ==> Valid(r.cont)
  {
    var x := Extract(c, id);
    Update(x.node.Some?, x.cont)
  }

  /** Deletes all nodes; the join bookkeeping is kept. */
  function Clear(c: NodeCont): (r: NodeCont)
    ensures Size(r) == 0
    ensures forall id :: Retrieve(r, id).None?
    ensures SameJoinState(c, r)
    ensures Valid(c) ==> Valid(r)
  {
    c.(nodes := map[])
  }

  /** A successful insertion is undone by erasing the same id. */
  lemma InsertThenErase(c: NodeCont, id: NodeId, pos: Position)
    requires Insert(c, id, pos).ok
    ensures Erase(Insert(c, id, pos).cont, id) == Update(true, c)
  {
    var d := Insert(c, id, pos).cont;
    assert d.nodes - {id} == c.nodes;
  }

  /**
   * Erasing a stored node and inserting it again restores the container,
   * provided no other node has meanwhile come to share its position.
   */
  lemma EraseThenInsert(c: NodeCont, id: NodeId)
    requires Valid(c) && id in c.nodes
    requires !PositionTaken(Erase(c, id).cont, c.nodes[id].pos)
    ensures InsertNode(Erase(c, id).cont, c.nodes[id]) == Update(true, c)
  {
    var d := Erase(c, id).cont;
    assert d.nodes[id := c.nodes[id]] == c.nodes;
  }

  /** Returns some node lying exactly at `pos`, or None if no stored node lies there. */
  method RetrieveAt(c: NodeCont, pos: Position) returns (r: Option<Node>)
    ensures r.None? <==> !PositionTaken(c, pos)
    ensures r.Some? ==> r.value.pos == pos && r.value in c.nodes.Values
  {
    var todo := c.nodes.Keys;
    while todo != {}
      invariant todo <= c.nodes.Keys
      invariant forall id :: id in c.nodes && id !in todo ==> c.nodes[id].pos != pos
      decreases todo
    {
      var id :| id in todo;
      if c.nodes[id].pos == pos {
        return Some(c.nodes[id]);
      }
      todo := todo - {id};
    }
    return None;
  }

  /** Lists the ids of all stored nodes, each exactly once. */
  method GetAllNames(c: NodeCont) returns (names: seq<NodeId>)
    ensures forall id :: id in names <==> id in c.nodes
    ensures forall i, j :: 0 <= i < j < |names| ==> names[i] != names[j]
    ensures |names| == Size(c)
  {
    names := [];
    var todo := c.nodes.Keys;
    while todo != {}
      invariant todo <= c.nodes.Keys
      invariant forall id :: id in names <==> id in c.nodes && id !in todo
      invariant forall i, j :: 0 <= i < j < |names| ==> names[i] != names[j]
      invariant |names| + |todo| == |c.nodes.Keys|
      decreases todo
    {
      var id :| id in todo;
      assert todo == (todo - {id}) + {id};
      names := names + [id];
      todo := todo - {id};
    }
  }

  /** Whether an exclusion for `id` is recorded: not for an id of a loaded join
      cluster, and, when checking is on, only for a stored node. */
  predicate ExclusionAccepted(c: NodeCont, id: NodeId, check: bool) {
    id !in c.joined && (!check || id in c.nodes)
  }

  /**
   * Records the given ids as excluded from joining. Ids that already occur in
   * a loaded join cluster, and (when `check` is set) ids of unknown nodes, are
   * not recorded but reported back.
   */
  function AddJoinExclusion(c: NodeCont, ids: seq<NodeId>, check: bool): (r: ExclusionUpdate)
    ensures r.cont.nodes == c.nodes
    ensures r.cont.joined == c.joined && r.cont.clusters2Join == c.clusters2Join
    ensures forall id :: id in r.cont.joinExclusions <==>
      id in c.joinExclusions || (id in ids && ExclusionAccepted(c, id, check))
    ensures forall id :: id in r.ignored <==> id in ids && !ExclusionAccepted(c, id, check)
    ensures Valid(c) ==> Valid(r.cont)
    decreases |ids|
  {
    if |ids| == 0 then ExclusionUpdate(c, [])
    else
      var id := ids[0];
      assert ids == [id] + ids[1..];
      if ExclusionAccepted(c, id, check) then
        AddJoinExclusion(c.(joinExclusions := c.joinExclusions + {id}), ids[1..], check)
      else
        var rest := AddJoinExclusion(c, ids[1..], check);
        ExclusionUpdate(rest.cont, [id] + rest.ignored)
  }

  /**
   * Records a set of node ids to be joined later. A cluster that meets an
   * excluded id, or an id of an earlier loaded cluster, is refused and leaves
   * the container unchanged. Node ids are not checked against stored nodes.
   */
  function AddCluster2Join(c: NodeCont, cluster: set<NodeId>): (r: ClusterUpdate)
    ensures r.accepted <==> cluster !! c.joinExclusions && cluster !! c.joined
    ensures r.accepted ==> r.cont.clusters2Join == c.clusters2Join + [cluster]
    ensures r.accepted ==> r.cont.joined == c.joined + cluster
    ensures !r.accepted ==> r.cont == c
    ensures r.cont.nodes == c.nodes && r.cont.joinExclusions == c.joinExclusions
    ensures Valid(c) ==> Valid(r.cont)
  {
    if cluster !! c.joinExclusions && cluster !! c.joined then
      ClusterUpdate(true, c.(clusters2Join := c.clusters2Join + [cluster], joined := c.joined + cluster))
    else ClusterUpdate(false, c)
  }

  /** A configuration step of the join bookkeeping, as loaded from input files. */
  datatype JoinConfig =
    | Exclude(ids: seq<NodeId>, check: bool)
    | Join(cluster: set<NodeId>)

  /** Applies configuration steps in order. */
  function Configure(c: NodeCont, steps: seq<JoinConfig>): NodeCont
    decreases |steps|
  {
    if |steps| == 0 then c
    else
      var next := match steps[0]
        case Exclude(ids, check) => AddJoinExclusion(c, ids, check).cont
        case Join(cluster) => AddCluster2Join(c, cluster).cont;
      Configure(next, steps[1..])
  }

  /**
   * Whatever order exclusions and join clusters are loaded in, no loaded join
   * cluster contains an id excluded from joining, and the stored nodes are
   * untouched.
   */
  lemma {:induction false} ExcludedNeverInLoadedCluster(c: NodeCont, steps: seq<JoinConfig>)
    requires Valid(c)
    ensures Valid(Configure(c, steps))
    ensures Configure(c, steps).nodes == c.nodes
    ensures forall i, id ::
      0 <= i < |Configure(c, steps).clusters2Join| && id in Configure(c, steps).clusters2Join[i]
      ==> id !in Configure(c, steps).joinExclusions
    decreases |steps|
  {
    if |steps| > 0 {
      var next := match steps[0]
        case Exclude(ids, check) => AddJoinExclusion(c, ids, check).cont
        case Join(cluster) => AddCluster2Join(c, cluster).cont;
      ExcludedNeverInLoadedCluster(next, steps[1..]);
    }
  }
}

=== FILE: singleton_dictionary.dfy ===
/**
 * Life cycle of the singleton dictionary: one global instance that must be
 * created explicitly before anybody asks for it, and that destruction resets.
 * The global instance pointer is an explicit state value (`Slot`).
 */
module SingletonDictionary {
  import opened Common

  /** The two operation modes of a dictionary. */
  datatype OperationMode = Insert | Find

  /**
   * One dictionary object. `serial` tells instances apart: it plays the part
   * of the object's address, and no two created instances share it.
   */
  datatype Dict<K, V> = Dict(serial: nat, mode: OperationMode, entries: map<K, V>)

  /** Why an operation of the singleton failed. */
  datatype SingletonError =
    | SingletonNotCreated(msg: string)  // getInstance before create
    | CreateTwice                       // the assertion of create is violated

  const NotCreatedMessage: string := "Instance of SingletonDictionary has not been created."

  /**
   * The global state: the instance pointer (`None` is the null pointer) and
   * the number of instances created so far.
   */
  datatype Slot<K, V> = Slot(instance: Option<Dict<K, V>>, created: nat)

  /** Every instance that exists was created earlier, so its serial is taken. */
  ghost predicate Valid<K, V>(s: Slot<K, V>) {
    s.instance.Some? ==> s.instance.value.serial < s.created
  }

  /** The state before anything happened: no instance, none created. */
  function Initial<K, V>(): (s: Slot<K, V>)
    ensures Valid(s) && s.instance.None?
  {
    Slot(None, 0)
  }

  /**
   * The protected constructor: a new, empty dictionary in insert mode.
   */
  function NewDict<K, V>(serial: nat): (d: Dict<K, V>)
    ensures d.mode == Insert && d.entries == map[] && d.serial == serial
  {
    Dict(serial, Insert, map[])
  }

  /**
   * Creates the sole instance. Fails, leaving nothing changed, when an
   * instance already exists; otherwise the new instance is different from
   * every instance created before.
   */
  function Create<K, V>(s: Slot<K, V>): (r: Result<Slot<K, V>, SingletonError>)
    ensures r.Ok? <==> s.instance.None?
    ensures r.Err? ==> r.error == CreateTwice
    ensures r.Ok? ==> r.value.instance.Some? && r.value.created == s.created + 1
    ensures r.Ok? ==> r.value.instance.value.mode == Insert && r.value.instance.value.entries == map[]
    ensures r.Ok? ==> r.value.instance.value.serial == s.created
    ensures Valid(s) && r.Ok? ==> Valid(r.value)
  {
    if s.instance.Some? then Err(CreateTwice)
    else Ok(Slot(Some(NewDict(s.created)), s.created + 1))
  }

  /**
   * Returns the sole instance, or fails with SingletonNotCreated when there is
   * none. Never creates one and never changes the state.
   */
  function GetInstance<K, V>(s: Slot<K, V>): (r: Result<Dict<K, V>, SingletonError>)
    ensures r.Ok? <==> s.instance.Some?
    ensures r.Ok? ==> r.value == s.instance.value
    ensures r.Err? ==> r.error == SingletonNotCreated(NotCreatedMessage)
  {
    match s.instance
    case None => Err(SingletonNotCreated(NotCreatedMessage))
    case Some(d) => Ok(d)
  }

  /** The destructor: resets the instance pointer, so the singleton is no longer created. */
  function Destroy<K, V>(s: Slot<K, V>): (r: Slot<K, V>)
    ensures r.instance.None? && r.created == s.created
    ensures Valid(s) ==> Valid(r)
    ensures GetInstance(r) == Err(SingletonNotCreated(NotCreatedMessage))
    ensures Create(r).Ok?
  {
    Slot(None, s.created)
  }

  /** A create after a destruction yields an instance different from the destroyed one. */
  lemma RecreatedIsNew<K, V>(s: Slot<K, V>)
    requires Valid(s) && s.instance.Some?
    ensures Create(Destroy(s)).Ok?
    ensures Create(Destroy(s)).value.instance.value != s.instance.value
  {
    assert s.instance.value.serial < s.created;
  }

  /** The calls a client can make on the singleton. */
  datatype Call = CreateCall | GetCall | DestroyCall

  /** What a call yields: a failure, a dictionary (for get) or nothing. */
  datatype Outcome<K, V> = Failed(error: SingletonError) | Got(dict: Dict<K, V>) | Done

  /** One call on the singleton: its outcome and the state after it. */
  function Step<K, V>(s: Slot<K, V>, c: Call): (Outcome<K, V>, Slot<K, V>) {
    match c
    case CreateCall =>
      (match Create(s)
       case Ok(s') => (Done, s')
       case Err(e) => (Failed(e), s))
    case GetCall =>
      (match GetInstance(s)
       case Ok(d) => (Got(d), s)
       case Err(e) => (Failed(e), s))
    case DestroyCall => (Done, Destroy(s))
  }

  /** Runs the calls one after the other; returns every outcome and the final state. */
  function Run<K, V>(s: Slot<K, V>, calls: seq<Call>): (r: (seq<Outcome<K, V>>, Slot<K, V>))
    ensures |r.0| == |calls|
    decreases |calls|
  {
    if calls == [] then ([], s)
    else
      var (o, s') := Step(s, calls[0]);
      var (os, s'') := Run(s', calls[1..]);
      ([o] + os, s'')
  }

  /**
   * Once created, every get returns the same instance until the instance is
   * destroyed; a create in between fails and changes nothing.
   */
  lemma {:induction false} SameInstanceUntilDestroyed<K, V>(s: Slot<K, V>, calls: seq<Call>)
    requires s.instance.Some?
    requires DestroyCall !in calls
    ensures Run(s, calls).1 == s
    ensures forall k :: 0 <= k < |calls| && calls[k] == GetCall ==> Run(s, calls).0[k] == Got(s.instance.value)
    ensures forall k :: 0 <= k < |calls| && calls[k] == CreateCall ==> Run(s, calls).0[k] == Failed(CreateTwice)
    decreases |calls|
  {
    if calls != [] {
      assert calls == [calls[0]] + calls[1..];
      assert Step(s, calls[0]).1 == s;
      SameInstanceUntilDestroyed(s, calls[1..]);
      var os := Run(s, calls).0;
      forall k | 0 < k < |calls| ensures os[k] == Run(s, calls[1..]).0[k - 1] {
      }
    }
  }

  /** Without a create, every get after a destruction fails with SingletonNotCreated. */
  lemma {:induction false} NotCreatedAfterDestroy<K, V>(s: Slot<K, V>, calls: seq<Call>)
    requires s.instance.None?
    requires CreateCall !in calls
    ensures Run(s, calls).1.instance.None?
    ensures forall k :: 0 <= k < |calls| && calls[k] == GetCall ==>
      Run(s, calls).0[k] == Failed(SingletonNotCreated(NotCreatedMessage))
    decreases |calls|
  {
    if calls != [] {
      assert calls == [calls[0]] + calls[1..];
      var s' := Step(s, calls[0]).1;
      assert s'.instance.None?;
      NotCreatedAfterDestroy(s', calls[1..]);
      var os := Run(s, calls).0;
      forall k | 0 < k < |calls| ensures os[k] == Run(s', calls[1..]).0[k - 1] {
      }
    }
  }
}
